=== FILE: README.md ===
# Donation chaincode: an indexed record store with embedded history

This project models the core of a Hyperledger Fabric chaincode that records
donations. The ledger state is a string-keyed key-value store. Each donation
record is stored under its own id and carries its history as a list of
transactions. One well-known key, `allDonations`, holds the index: the ordered
list of every donation id created.

The model treats the state as a pure value, `map<string, Value>`. A `Value`
is either a decoded donation record or the decoded index. Every entry point
takes a store, a set of collaborator faults and the arguments. The writing
entry points (`Init`, `CreateDonation`, `Invoke`) return a `Step`: the new
store plus a reply. Writes made before an error stay in the returned store,
because the two `PutState` calls of `createDonation` are not atomic. The
reading entry points (`GetAllDonationsByUserId`, `Query`) return only a
`Result`, since they write nothing. The modelled entry points:

- `Init` writes an empty index, whatever the store held before.
- `createDonation` checks for six arguments and builds a record with exactly
  one `CREATE` transaction whose id is the donation id followed by `T1`. It
  writes the record, then reads the index, appends the id and writes the
  index back.
- `getAllDonationsByUserId` scans the index in order. It keeps the ids whose
  stored record belongs to the queried owner.
- `Invoke` and `Query` check the function name and the argument count, then
  dispatch.

Collaborator behaviour that the model takes as parameters:

- `Faults` names the keys on which `GetState` or `PutState` fail.
- Reading a missing key is not an error of the call. It yields no bytes.
- Decoding no bytes fails for the index, which is an error.
- For a record, the decode error is ignored, so a missing record reads as
  the zero donation (empty owner, empty id).
- Decoding the other type's encoding yields the zero value. The two encodings
  share no field name, so a donation stored under `allDonations` reads back
  as an empty index.

The source does not compile as written. The model follows its evident intent:

- the record type is declared `Domation` but used as `Donation`, and the
  model treats them as one type;
- `res.Batches` and `alld.Batches` are read as `.Donations`;
- `sb.Owner` is read as `sd.Owner`;
- argument strings are assigned to `int` fields. These fields are `Num`
  values: `Unset` is Go's zero value, and `Arg(text)` keeps the argument text
  without interpreting it.

On these points the model follows the code as written:

- the donation's own amount is never set, because its assignment is commented
  out, so it stays `Unset`;
- the scan appends the id of the decoded record, not the index entry. The two
  are equal whenever every indexed id resolves to a record stored under that
  id (`Resolved`, implied by `RecordsKeyed` and `IndexResolves`). An index
  entry with no record decodes to the zero donation and contributes the empty
  id;
- a missing record does not stop the scan. It reads as the zero donation;
- repeated ids are neither rejected nor deduplicated;
- `Query` with one argument and an unknown name returns no payload and no
  error.

One point departs from the code as written. `createDonation` stores its
record through the corrected codec (`Codec.Persisted`), which keeps the
transaction date. As written, the date is never persisted because the field
`tDate` is unexported (see "## Findings"). The `CreateDonation` and
`EndToEnd` contracts therefore describe the stored record with its date.

Modules: `Wrappers` (Option/Result), `Donations` (record types and their
construction), `Codec` (which transaction fields survive storage), `Ledger`
(store, collaborator calls, consistency predicates), `Chaincode` (entry points)
and `ChaincodeLemmas` (properties that relate several calls).

## Model

| member | source | states |
|---|---|---|
| `Donations.NewDonation` | finished/chaincode_finished.go:176-190 | The record has id args[3], owner args[2] and projectID args[1], and its amount is unset. It holds exactly one transaction: type CREATE, id args[3]+"T1", amount args[0], projectID args[1], date args[4], empty destination. Its history is valid. |
| `Donations.DestinationIgnored` | finished/chaincode_finished.go:183-190 | The sixth argument (destination) never affects the record built. |
| `Codec.TxRoundTrip` | finished/chaincode_finished.go:42-49 | Decoding a transaction encoded with every field under its tag gives back the same transaction. |
| `Codec.TxRoundTripAsWritten` | finished/chaincode_finished.go:42-49 | With the unexported `tDate` skipped by the encoder, decoding gives back the transaction with an empty date. |
| `Codec.PersistedTxs` | finished/chaincode_finished.go:190-195 | Storing and reading back a history with the intended codec leaves it unchanged. |
| `Codec.Persisted` | finished/chaincode_finished.go:194-195 | A donation stored and read back with the intended codec equals the donation written. |
| `Codec.PersistedTxsAsWritten` | finished/chaincode_finished.go:190-195 | With the codec as declared, each stored transaction comes back with its date cleared and everything else intact. |
| `Codec.PersistedAsWritten` | finished/chaincode_finished.go:194-195 | With the codec as declared, a stored donation keeps id, owner, amount, projectID and the length of its history, but every transaction loses its date. |
| `Codec.DateLostAsWritten` | finished/chaincode_finished.go:44 | For the donation created with date 2016-04-25, the codec as declared stores a CREATE entry with an empty date, while the intended codec keeps the record intact. |
| `Ledger.DecodeIndex` | finished/chaincode_finished.go:134-138 | Unmarshalling the index (here and at :206-209) fails exactly when the key holds no bytes. An index value decodes to its ids, and a donation record stored under the index key decodes to the empty index. |
| `Ledger.DecodeDonation` | finished/chaincode_finished.go:148-149 | Unmarshalling a record whose decode error is ignored: a stored record decodes to itself, and a missing key or an index value leaves the zero donation. |
| `Chaincode.Init` | finished/chaincode_finished.go:62-74 | If the index write fails, Init returns that error and the store is unchanged. Otherwise the index decodes as empty and every other key is unchanged. |
| `Chaincode.CreateDonation` | finished/chaincode_finished.go:166-219 | A wrong arity or a failed record write leaves the store unchanged. Only args[3] and the index key are written. The store ends untouched, with only the record, or with record and index, and the last only on success. With args[3] distinct from the index key: success happens exactly when every collaborator call succeeds and the index decodes; success stores the record and appends args[3] to the end of the old index; a failure never changes the index; once the record write succeeds, a later failure leaves the store as the old store plus the committed record (no rollback). |
| `Chaincode.Scan` | finished/chaincode_finished.go:140-159 | The scan fails, with the "failed to get donation" error, exactly when reading some indexed key fails. Otherwise it returns no more ids than the index holds. |
| `Chaincode.GetAllDonationsByUserId` | finished/chaincode_finished.go:123-161 | A failed index read or an undecodable index gives its own error. When the index reads, the query succeeds exactly when every indexed key can be read, and it returns at most one id per index entry. |
| `Chaincode.Invoke` | finished/chaincode_finished.go:89-102 | `init` runs Init and `createDonation` runs createDonation. An unknown function name gives the unknown-function error and writes nothing. Only `init` or a six-argument `createDonation` can change the store. `createDonation` with another arity is rejected without writes. |
| `Chaincode.Query` | finished/chaincode_finished.go:107-119 | Any argument count other than 1 is rejected. With one argument, an unknown name gives no payload and no error. Only `getAllDonationsByUserId` returns ids or an error, and with one argument it answers exactly with the result or the error of getAllDonationsByUserId for that argument. |
| `ChaincodeLemmas.OwnedIdsMembership` | finished/chaincode_finished.go:142-155 | An id is in the owner filter of a list exactly when it is in the list and its stored record belongs to the owner. |
| `ChaincodeLemmas.OwnedIdsAppend` | finished/chaincode_finished.go:142-155 | The owner filter distributes over concatenation, so it keeps index order. |
| `ChaincodeLemmas.OwnedIdsFrame` | finished/chaincode_finished.go:144-151 | The owner filter depends only on the values stored under the listed keys. |
| `ChaincodeLemmas.ScanIsOwnedIds` | finished/chaincode_finished.go:142-155 | When every id resolves to a record under its own id and no read fails, the scan returns exactly the owner filter of the ids. |
| `ChaincodeLemmas.QueryIsOwnerFilter` | finished/chaincode_finished.go:123-161 | On a store whose index resolves and whose records sit under their ids, with no read faults, the query returns the indexed ids owned by the user, in index order. An id is in the result exactly when it is indexed and owned by the user. |
| `ChaincodeLemmas.QueryAnswersOwnerFilter` | finished/chaincode_finished.go:107-119 | On a store whose records sit under their ids and whose index resolves, with no read faults, `Query` with `getAllDonationsByUserId` and one owner returns the indexed ids owned by that owner, in index order. |
| `ChaincodeLemmas.InitThenQueryEmpty` | finished/chaincode_finished.go:66-68 | After a successful Init, a query for any owner returns the empty list, not an error. |
| `ChaincodeLemmas.InitResetsIndex` | finished/chaincode_finished.go:62-74 | After Init the index resolves and records stay keyed. No record is orphaned exactly when the store held no record outside the index key, so Init is a destructive reset. |
| `ChaincodeLemmas.CreateKeepsConsistency` | finished/chaincode_finished.go:195-216 | From any store whose records sit under their ids and whose index resolves, including one left by an earlier failure or by Init over existing records, createDonation keeps both properties whatever fails. The only new orphan it can leave is the new record after a failure: stored but not indexed, never the reverse. When the record write succeeds, the new record is an orphan exactly when a later step failed and its id was not already indexed. From a fully consistent store, success stays fully consistent. |
| `ChaincodeLemmas.CreateThenQuery` | finished/chaincode_finished.go:201-213 | From any store whose records sit under their ids and whose index resolves, after a successful createDonation of an id not yet indexed, each owner's query is the old result, followed by the new id for its owner only. |
| `ChaincodeLemmas.IndexKeyIdResetsIndex` | finished/chaincode_finished.go:195-213 | With no faults, a donation whose id is `allDonations` succeeds: its record overwrites the index, decodes as an empty index, and the index is rewritten as that single id, losing every earlier entry. No other key changes. The index then lists a key that holds no donation, so it no longer resolves, and a query for the empty owner returns `[""]`. |
| `ChaincodeLemmas.RepeatedIdDuplicates` | finished/chaincode_finished.go:210 | There is no uniqueness check: creating the same id twice puts it at the end of the index twice. |
| `ChaincodeLemmas.EndToEnd` | finished/chaincode_finished.go:166-219 | Init on an empty ledger, then createDonation of D1 for alice, stores exactly the index ["D1"] and the record with its single D1T1 CREATE transaction, with the amount unset. Querying alice gives ["D1"] and querying carol gives []. |

## Left out

- JSON at the byte level. Values are stored already decoded. Only the field-level effect on transactions is modelled (`Codec`), because there a field is lost.
- The `shim.ChaincodeStub` API, `main` and `shim.Start`. The stub is replaced by the pure store and the `Faults` parameter. A missing key is taken to read as no bytes without an error; the shim is not part of this model.
- The legacy `Run` entry point, which only forwards to `Invoke`, and all `fmt` logging. Neither has behaviour of its own.
- The unused `AllDonationsDetails` type. No operation reads or writes it.
- Conversion of the amount and projectID arguments to integers. The source does not perform it (the assignments do not compile), so these fields stay opaque text.
- Concurrency, including the read-modify-write race on the index key. Each invocation is modelled as one sequential step.
- The loss of the transaction date as written. The store writes through the corrected codec, and the loss is modelled only in `Codec` (see "## Findings").
- An id equal to the index key `allDonations`. Most createDonation lemmas assume the id differs from it, because the source keeps records and the index in one key space, and that id makes the record write clobber the index. What the source does then is stated by `IndexKeyIdResetsIndex`.
- Rollback by the host of a transaction whose invocation returned an error. The model returns the writes made before the error, exposing the record-without-index window that the chaincode itself leaves open.

## Findings

| source | as written | input that shows it | evidently intended | confidence | as-written member | corrected member |
|---|---|---|---|---|---|---|
| finished/chaincode_finished.go:44 | The transaction date is declared as the unexported field `tDate`, so `json.Marshal` skips it despite its `json:"tdate"` tag. | createDonation with `["100","7","alice","D1","2016-04-25","bob"]`: the stored CREATE entry reads back with an empty date. | An exported date field, so that the date is stored with the transaction. | high; not executed | `Codec.DateLostAsWritten` | `Codec.Persisted` |

=== FILE: chaincode.dfy ===
/**
  The chaincode's entry points over the pure store: Init, createDonation,
  getAllDonationsByUserId and the Invoke/Query dispatch. Every invocation is
  one sequential step from a store to a store and a reply.
 */
module Chaincode {
  import opened Wrappers
  import opened Donations
  import opened Ledger
  import Codec

  /** The errors the chaincode returns. */
  datatype Error =
    | ArgumentCount(expected: nat)  // "Incorrect number of arguments ..."
    | PutFailed(key: string)        // the collaborator's PutState error, passed on
    | GetIndexFailed                // "Failed to get all Donations" / "... all Batches"
    | UnmarshalIndexFailed          // "Failed to Unmarshal all Donations"
    | GetDonationFailed             // "Failed to get Donation"
    | UnknownFunction               // "Received unknown function invocation"

  /** The payload of a successful call: nothing, or the JSON list of donation ids. */
  datatype Reply = NoPayload | DonationIds(ids: seq<string>)

  /**
    The store after a call, and its reply. Writes done before an error stay
    in the store: the two PutStates of createDonation are not atomic.
   */
  datatype Step = Step(store: Store, reply: Result<Reply, Error>)

  const InitName: string := "init"
  const CreateName: string := "createDonation"
  const QueryName: string := "getAllDonationsByUserId"

  /** Init: writes an empty index whatever the store held before. */
  function Init(s: Store, f: Faults): (r: Step)
    ensures IndexKey in f.failingPuts ==> r == Step(s, Err(PutFailed(IndexKey)))
    ensures IndexKey !in f.failingPuts ==>
      && r.reply == Ok(NoPayload)
      && IndexOf(r.store) == Some([])
      && SameExcept(s, r.store, {IndexKey})
  {
    match PutState(s, f, IndexKey, IndexValue([]))
    case None => Step(s, Err(PutFailed(IndexKey)))
    case Some(s') => Step(s', Ok(NoPayload))
  }

  /**
    createDonation: builds the record, writes it under its id, then reads the
    index, appends the id and writes the index back. Each step aborts the
    remaining ones on failure.
   */
  function CreateDonation(s: Store, f: Faults, args: seq<string>): (r: Step)
    // A wrong argument count writes nothing.
    ensures |args| != CreateArity ==> r == Step(s, Err(ArgumentCount(CreateArity)))
    // A failed record write aborts before the index is touched.
    ensures |args| == CreateArity && args[3] in f.failingPuts ==> r == Step(s, Err(PutFailed(args[3])))
    // Only the record's key and the index key are ever written.
    ensures |args| == CreateArity ==> SameExcept(s, r.store, {args[3], IndexKey})
    // The store ends untouched, with the record only, or (on success only) with record and index.
    ensures |args| == CreateArity ==>
      || r.store == s
      || r.store == s[args[3] := Record(NewDonation(args))]
      || (r.reply.Ok? && IndexKey in r.store
          && r.store == s[args[3] := Record(NewDonation(args))][IndexKey := r.store[IndexKey]])
    ensures |args| == CreateArity && args[3] != IndexKey ==>
      // Success exactly when every collaborator call succeeds and the index decodes.
      && (r.reply.Ok? <==>
            args[3] !in f.failingPuts && IndexKey !in f.failingGets
            && IndexOf(s).Some? && IndexKey !in f.failingPuts)
      // On success: the record is stored and the index gains the id at its end.
      && (r.reply.Ok? ==>
            && r.reply.value == NoPayload
            && Lookup(r.store, args[3]) == Some(Record(NewDonation(args)))
            && IndexOf(r.store) == Some(IndexOf(s).value + [args[3]]))
      // On failure the index is never changed.
      && (r.reply.Err? ==> Lookup(r.store, IndexKey) == Lookup(s, IndexKey))
      // A record write that succeeded stays committed when a later step fails.
      && (args[3] !in f.failingPuts && r.reply.Err? ==> r.store == s[args[3] := Record(NewDonation(args))])
  {
    if |args| != CreateArity then Step(s, Err(ArgumentCount(CreateArity)))
    else
      var d := NewDonation(args);
      match PutState(s, f, d.id, Record(Codec.Persisted(d)))
      case None => Step(s, Err(PutFailed(d.id)))
      case Some(s1) =>
        match GetState(s1, f, IndexKey)
        case None => Step(s1, Err(GetIndexFailed))
        case Some(raw) =>
          match DecodeIndex(raw)
          case None => Step(s1, Err(UnmarshalIndexFailed))
          case Some(ids) =>
            match PutState(s1, f, IndexKey, IndexValue(ids + [d.id]))
            case None => Step(s1, Err(PutFailed(IndexKey)))
            case Some(s2) => Step(s2, Ok(NoPayload))
  }

  /**
    The scan of getAllDonationsByUserId: reads each indexed key in order,
    decodes it (a decode failure leaves the zero donation) and keeps the
    decoded record's id when its owner is `user`.
   */
  function Scan(s: Store, f: Faults, ids: seq<string>, user: string): (r: Result<seq<string>, Error>)
    ensures r.Err? <==> exists i :: 0 <= i < |ids| && ids[i] in f.failingGets
    ensures r.Err? ==> r.error == GetDonationFailed
    ensures r.Ok? ==> |r.value| <= |ids|
    decreases |ids|
  {
    if ids == [] then Ok([])
    else
      match GetState(s, f, ids[0])
      case None => Err(GetDonationFailed)
      case Some(raw) =>
        var d := DecodeDonation(raw);
        var rest :- Scan(s, f, ids[1..], user);
        Ok((if d.owner == user then [d.id] else []) + rest)
  }

  /** getAllDonationsByUserId: reads and decodes the index, then scans it. */
  function GetAllDonationsByUserId(s: Store, f: Faults, user: string): (r: Result<seq<string>, Error>)
    ensures IndexKey in f.failingGets ==> r == Err(GetIndexFailed)
    ensures IndexKey !in f.failingGets && IndexOf(s).None? ==> r == Err(UnmarshalIndexFailed)
    ensures IndexKey !in f.failingGets && IndexOf(s).Some? ==>
      (r.Ok? <==> forall i :: 0 <= i < |IndexOf(s).value| ==> IndexOf(s).value[i] !in f.failingGets)
    ensures r.Ok? ==> IndexOf(s).Some? && |r.value| <= |IndexOf(s).value|
  {
    match GetState(s, f, IndexKey)
    case None => Err(GetIndexFailed)
    case Some(raw) =>
      match DecodeIndex(raw)
      case None => Err(UnmarshalIndexFailed)
      case Some(ids) => Scan(s, f, ids, user)
  }

  /** Invoke: routes `init` and `createDonation`; any other name is an error that writes nothing. */
  function Invoke(s: Store, f: Faults, name: string, args: seq<string>): (r: Step)
    ensures name != InitName && name != CreateName ==> r == Step(s, Err(UnknownFunction))
    ensures r.store != s ==> name == InitName || (name == CreateName && |args| == CreateArity)
    ensures name == CreateName && |args| != CreateArity ==> r == Step(s, Err(ArgumentCount(CreateArity)))
    ensures name == InitName ==> r == Init(s, f)
    ensures name == CreateName ==> r == CreateDonation(s, f, args)
  {
    if name == InitName then Init(s, f)
    else if name == CreateName then CreateDonation(s, f, args)
    else Step(s, Err(UnknownFunction))
  }

  /**
    Query: exactly one argument; `getAllDonationsByUserId` answers with the
    ids, any other name with no payload and no error. Queries never write.
   */
  function Query(s: Store, f: Faults, name: string, args: seq<string>): (r: Result<Reply, Error>)
    ensures |args| != 1 ==> r == Err(ArgumentCount(1))
    ensures |args| == 1 && name != QueryName ==> r == Ok(NoPayload)
    ensures r.Ok? && r.value.DonationIds? ==> name == QueryName && |args| == 1
    ensures r.Err? && |args| == 1 ==> name == QueryName
    ensures |args| == 1 && name == QueryName ==>
      match GetAllDonationsByUserId(s, f, args[0])
      case Ok(ids) => r == Ok(DonationIds(ids))
      case Err(e) => r == Err(e)
  {
    if |args| != 1 then Err(ArgumentCount(1))
    else if name == QueryName then
      match GetAllDonationsByUserId(s, f, args[0])
      case Ok(ids) => Ok(DonationIds(ids))
      case Err(e) => Err(e)
    else Ok(NoPayload)
  }
}

=== FILE: chaincode_lemmas.dfy ===
/**
  Properties relating several calls of the chaincode: the owner query is a
  filter of the index, createDonation and Init keep records and index
  consistent, and the failure window of createDonation is exactly "record
  stored, not yet indexed".
 */
module ChaincodeLemmas {
  import opened Wrappers
  import opened Donations
  import opened Ledger
  import opened Chaincode

  /** The record stored under `id` exists and belongs to `user`. */
  predicate OwnedBy(s: Store, id: string, user: string) {
    IsRecord(s, id) && s[id].donation.owner == user
  }

  /** Reference definition of the query: the ids of `ids`, in order, owned by `user`. */
  function OwnedIds(s: Store, ids: seq<string>, user: string): seq<string> {
    if ids == [] then []
    else (if OwnedBy(s, ids[0], user) then [ids[0]] else []) + OwnedIds(s, ids[1..], user)
  }

  /** Every id of `ids` resolves to a record stored under that same id. */
  ghost predicate Resolved(s: Store, ids: seq<string>) {
    forall i :: 0 <= i < |ids| ==> IsRecord(s, ids[i]) && s[ids[i]].donation.id == ids[i]
  }

  /** The filter keeps exactly the owner's ids. */
  lemma {:induction false} OwnedIdsMembership(s: Store, ids: seq<string>, user: string, x: string)
    ensures x in OwnedIds(s, ids, user) <==> x in ids && OwnedBy(s, x, user)
    decreases |ids|
  {
    if ids != [] {
      OwnedIdsMembership(s, ids[1..], user, x);
      assert ids == [ids[0]] + ids[1..];
    }
  }

  /** The filter keeps index order: it distributes over concatenation. */
  lemma {:induction false} OwnedIdsAppend(s: Store, a: seq<string>, b: seq<string>, user: string)
    ensures OwnedIds(s, a + b, user) == OwnedIds(s, a, user) + OwnedIds(s, b, user)
    decreases |a|
  {
    if a != [] {
      assert (a + b)[1..] == a[1..] + b;
      OwnedIdsAppend(s, a[1..], b, user);
    } else {
      assert a + b == b;
    }
  }

  /** The filter depends only on the keys it is given. */
  lemma {:induction false} OwnedIdsFrame(s: Store, t: Store, ids: seq<string>, user: string)
    requires forall i :: 0 <= i < |ids| ==> Lookup(s, ids[i]) == Lookup(t, ids[i])
    ensures OwnedIds(s, ids, user) == OwnedIds(t, ids, user)
    decreases |ids|
  {
    if ids != [] {
      assert Lookup(s, ids[0]) == Lookup(t, ids[0]);
      OwnedIdsFrame(s, t, ids[1..], user);
    }
  }

  /** Over resolved ids and without read faults, the scan computes the reference filter. */
  lemma {:induction false} ScanIsOwnedIds(s: Store, f: Faults, ids: seq<string>, user: string)
    requires Resolved(s, ids)
    requires forall i :: 0 <= i < |ids| ==> ids[i] !in f.failingGets
    ensures Scan(s, f, ids, user) == Ok(OwnedIds(s, ids, user))
    decreases |ids|
  {
    if ids != [] {
      assert IsRecord(s, ids[0]) && s[ids[0]].donation.id == ids[0];
      ScanIsOwnedIds(s, f, ids[1..], user);
    }
  }

  /**
    On a consistent store without read faults, getAllDonationsByUserId
    returns exactly the indexed ids owned by `user`, in index order.
   */
  lemma QueryIsOwnerFilter(s: Store, f: Faults, user: string)
    requires RecordsKeyed(s) && IndexResolves(s)
    requires IndexKey !in f.failingGets
    requires forall i :: 0 <= i < |s[IndexKey].ids| ==> s[IndexKey].ids[i] !in f.failingGets
    ensures GetAllDonationsByUserId(s, f, user) == Ok(OwnedIds(s, s[IndexKey].ids, user))
    ensures forall x :: x in GetAllDonationsByUserId(s, f, user).value <==> Indexed(s, x) && OwnedBy(s, x, user)
  {
    var ids := s[IndexKey].ids;
    assert Resolved(s, ids);
    ScanIsOwnedIds(s, f, ids, user);
    forall x {
      OwnedIdsMembership(s, ids, user, x);
    }
  }

  /**
    Query with the query name and one argument answers the owner filter of
    the index: the dispatch reaches getAllDonationsByUserId.
   */
  lemma QueryAnswersOwnerFilter(s: Store, f: Faults, user: string)
    requires RecordsKeyed(s) && IndexResolves(s)
    requires IndexKey !in f.failingGets
    requires forall i :: 0 <= i < |s[IndexKey].ids| ==> s[IndexKey].ids[i] !in f.failingGets
    ensures Query(s, f, QueryName, [user]) == Ok(DonationIds(OwnedIds(s, s[IndexKey].ids, user)))
  {
    QueryIsOwnerFilter(s, f, user);
  }

  /** After Init, a query for any owner returns the empty list, not an error. */
  lemma InitThenQueryEmpty(s: Store, f: Faults, user: string)
    requires IndexKey !in f.failingPuts && IndexKey !in f.failingGets
    ensures GetAllDonationsByUserId(Init(s, f).store, f, user) == Ok([])
  {
  }

  /**
    Init always leaves a resolvable empty index and keeps the records; it
    leaves no orphan exactly when the store held no record beforehand (it is
    a destructive reset).
   */
  lemma InitResetsIndex(s: Store, f: Faults)
    requires IndexKey !in f.failingPuts
    ensures IndexResolves(Init(s, f).store)
    ensures RecordsKeyed(s) ==> RecordsKeyed(Init(s, f).store)
    ensures NoOrphans(Init(s, f).store) <==> forall k :: k != IndexKey ==> !IsRecord(s, k)
  {
    var t := Init(s, f).store;
    assert t == s[IndexKey := IndexValue([])];
    if NoOrphans(t) {
      forall k | k != IndexKey
        ensures !IsRecord(s, k)
      {
        assert !Orphan(t, k);
      }
    }
  }

  /**
    createDonation keeps every record under its own id and the index
    resolvable, from any such store, whatever fails. It creates no orphan
    except the new record after a failure (stored, not indexed; never the
    reverse), and from a fully consistent store success stays consistent.
   */
  lemma CreateKeepsConsistency(s: Store, f: Faults, args: seq<string>)
    requires RecordsKeyed(s) && IndexResolves(s)
    requires |args| == CreateArity && args[3] != IndexKey
    ensures var r := CreateDonation(s, f, args);
      && RecordsKeyed(r.store)
      && IndexResolves(r.store)
      && (forall k :: Orphan(r.store, k) ==> Orphan(s, k) || (k == args[3] && r.reply.Err?))
      && (args[3] !in f.failingPuts ==> (Orphan(r.store, args[3]) <==> r.reply.Err? && !Indexed(s, args[3])))
      && (Consistent(s) && r.reply.Ok? ==> Consistent(r.store))
  {
  }

  /**
    A successful createDonation of an id not yet indexed extends every
    owner's query by that id (for its owner only), at the end.
   */
  lemma CreateThenQuery(s: Store, f: Faults, args: seq<string>, user: string)
    requires RecordsKeyed(s) && IndexResolves(s)
    requires |args| == CreateArity && args[3] != IndexKey && !Indexed(s, args[3])
    requires CreateDonation(s, f, args).reply.Ok?
    ensures GetAllDonationsByUserId(CreateDonation(s, f, args).store, NoFaults, user)
      == Ok(GetAllDonationsByUserId(s, NoFaults, user).value + (if args[2] == user then [args[3]] else []))
  {
    var t := CreateDonation(s, f, args).store;
    var ids := s[IndexKey].ids;
    assert IndexOf(s) == Some(ids);
    CreateKeepsConsistency(s, f, args);
    QueryIsOwnerFilter(s, NoFaults, user);
    QueryIsOwnerFilter(t, NoFaults, user);
    assert t[IndexKey].ids == ids + [args[3]];
    OwnedIdsAppend(t, ids, [args[3]], user);
    forall i | 0 <= i < |ids|
      ensures Lookup(s, ids[i]) == Lookup(t, ids[i])
    {
      assert IsRecord(s, ids[i]);
      assert ids[i] != args[3];
    }
    OwnedIdsFrame(s, t, ids, user);
    assert OwnedIds(t, [args[3]], user) == (if args[2] == user then [args[3]] else []);
  }

  /**
    A donation whose id is the index key overwrites the index with its
    record; that record then decodes as an empty index, so the index is
    rewritten as the single id and every earlier entry is lost.
   */
  lemma IndexKeyIdResetsIndex(s: Store, args: seq<string>)
    requires |args| == CreateArity && args[3] == IndexKey
    ensures var r := CreateDonation(s, NoFaults, args);
      && r.reply == Ok(NoPayload)
      && IndexOf(r.store) == Some([IndexKey])
      && SameExcept(s, r.store, {IndexKey})
      && !IndexResolves(r.store)
      && GetAllDonationsByUserId(r.store, NoFaults, "") == Ok([""])
  {
    var r := CreateDonation(s, NoFaults, args);
    assert [] + [IndexKey] == [IndexKey];
    assert r.store[IndexKey] == IndexValue([IndexKey]);
    assert r.store[IndexKey].ids[0] == IndexKey && !IsRecord(r.store, IndexKey);
    assert DecodeDonation(Lookup(r.store, IndexKey)) == ZeroDonation;
    assert Scan(r.store, NoFaults, [IndexKey][1..], "") == Ok([]);
    assert [""] + [] == [""];
  }

  /** There is no uniqueness check: creating the same id twice lists it twice. */
  lemma RepeatedIdDuplicates(s: Store, args: seq<string>)
    requires |args| == CreateArity && args[3] != IndexKey && IndexOf(s).Some?
    ensures var once := CreateDonation(s, NoFaults, args);
      var twice := CreateDonation(once.store, NoFaults, args);
      && once.reply.Ok? && twice.reply.Ok?
      && IndexOf(twice.store) == Some(IndexOf(s).value + [args[3], args[3]])
  {
    var once := CreateDonation(s, NoFaults, args);
    assert IndexOf(once.store) == Some(IndexOf(s).value + [args[3]]);
    assert IndexOf(s).value + [args[3]] + [args[3]] == IndexOf(s).value + [args[3], args[3]];
  }

  /**
    The end-to-end run: Init on an empty ledger, one createDonation, and two
    queries. The donation's own amount stays unset.
   */
  lemma EndToEnd()
    ensures Init(map[], NoFaults) == Step(map[IndexKey := IndexValue([])], Ok(NoPayload))
    ensures var s2 := CreateDonation(map[IndexKey := IndexValue([])], NoFaults, ["100", "7", "alice", "D1", "2016-04-25", "bob"]);
      && s2.reply == Ok(NoPayload)
      && s2.store == map[
           IndexKey := IndexValue(["D1"]),
           "D1" := Record(Donation("D1", "alice", Unset, Arg("7"),
                     [Transaction("D1T1", "2016-04-25", "", Arg("100"), Arg("7"), CreateType)]))]
      && GetAllDonationsByUserId(s2.store, NoFaults, "alice") == Ok(["D1"])
      && GetAllDonationsByUserId(s2.store, NoFaults, "carol") == Ok([])
  {
    var s1: Store := map[IndexKey := IndexValue([])];
    var args := ["100", "7", "alice", "D1", "2016-04-25", "bob"];
    assert args[3] + FirstTxSuffix == "D1T1";
    assert "D1" != IndexKey;
    assert IndexOf(s1) == Some([]);
    var s2 := CreateDonation(s1, NoFaults, args);
    var d := Donation("D1", "alice", Unset, Arg("7"),
               [Transaction("D1T1", "2016-04-25", "", Arg("100"), Arg("7"), CreateType)]);
    assert NewDonation(args) == d;
    assert [] + ["D1"] == ["D1"];
    assert s2.store == s1["D1" := Record(d)][IndexKey := IndexValue(["D1"])];
    assert IndexOf(s2.store) == Some(["D1"]);
    assert DecodeDonation(Lookup(s2.store, "D1")) == d;
    assert Scan(s2.store, NoFaults, ["D1"][1..], "alice") == Ok([]);
    assert Scan(s2.store, NoFaults, ["D1"][1..], "carol") == Ok([]);
    assert ["D1"] + [] == ["D1"];
    assert Scan(s2.store, NoFaults, ["D1"], "alice") == Ok(["D1"]);
  }
}

=== FILE: codec.dfy ===
/**
  The field-level effect of storing a transaction as JSON and reading it
  back. Go's encoder writes exported struct fields only, under their tags,
  and its decoder leaves absent fields at their zero value. The source's
  `Transaction` declares its date field as `tDate`, which is unexported, so
  the date is never written. `Persisted` is the evidently intended codec
  (every field written); the store model uses it.
 */
module Codec {
  import opened Donations

  /** A JSON field value as the codec writes one. */
  datatype Json = Str(s: string) | Number(n: Num)

  /** A JSON object: struct tag to value. */
  type Object = map<string, Json>

  /** The intended encoding: every field under its tag. */
  function EncodeTx(t: Transaction): Object {
    map[
      "id" := Str(t.id),
      "tdate" := Str(t.date),
      "destination" := Str(t.destination),
      "amount" := Number(t.amount),
      "projectID" := Number(t.projectID),
      "ttype" := Str(t.ttype)]
  }

  /** The encoding as declared: the unexported `tDate` is skipped despite its tag. */
  function EncodeTxAsWritten(t: Transaction): Object {
    EncodeTx(t) - {"tdate"}
  }

  function StrField(o: Object, tag: string): string {
    if tag in o && o[tag].Str? then o[tag].s else ""
  }

  function NumField(o: Object, tag: string): Num {
    if tag in o && o[tag].Number? then o[tag].n else Unset
  }

  /** Decodes a transaction; a field that is absent keeps its zero value. */
  function DecodeTx(o: Object): Transaction {
    Transaction(
      StrField(o, "id"),
      StrField(o, "tdate"),
      StrField(o, "destination"),
      NumField(o, "amount"),
      NumField(o, "projectID"),
      StrField(o, "ttype"))
  }

  /** The intended codec loses nothing. */
  lemma TxRoundTrip(t: Transaction)
    ensures DecodeTx(EncodeTx(t)) == t
  {
  }

  /** The codec as written gives back everything but the date, which comes back empty. */
  lemma TxRoundTripAsWritten(t: Transaction)
    ensures DecodeTx(EncodeTxAsWritten(t)) == t.(date := "")
  {
  }

  /** A history after it has been stored and read back with the intended codec. */
  function PersistedTxs(ts: seq<Transaction>): (r: seq<Transaction>)
    ensures r == ts
  {
    if ts == [] then []
    else
      TxRoundTrip(ts[0]);
      [DecodeTx(EncodeTx(ts[0]))] + PersistedTxs(ts[1..])
  }

  /** A donation after it has been stored and read back: identical to what was written. */
  function Persisted(d: Donation): (r: Donation)
    ensures r == d
  {
    d.(transactions := PersistedTxs(d.transactions))
  }

  /** A history stored and read back with the codec as written. */
  function PersistedTxsAsWritten(ts: seq<Transaction>): (r: seq<Transaction>)
    ensures |r| == |ts|
    ensures forall i :: 0 <= i < |ts| ==> r[i] == ts[i].(date := "")
  {
    if ts == [] then []
    else
      TxRoundTripAsWritten(ts[0]);
      [DecodeTx(EncodeTxAsWritten(ts[0]))] + PersistedTxsAsWritten(ts[1..])
  }

  /** A donation stored and read back with the codec as written. */
  function PersistedAsWritten(d: Donation): (r: Donation)
    ensures r.id == d.id && r.owner == d.owner && r.amount == d.amount && r.projectID == d.projectID
    ensures |r.transactions| == |d.transactions|
    ensures forall i :: 0 <= i < |d.transactions| ==> r.transactions[i] == d.transactions[i].(date := "")
  {
    d.(transactions := PersistedTxsAsWritten(d.transactions))
  }

  /**
    The record createDonation builds for a donation dated 2016-04-25 does not
    survive the codec as written: the stored CREATE entry has no date.
   */
  lemma DateLostAsWritten()
    ensures var d := NewDonation(["100", "7", "alice", "D1", "2016-04-25", "bob"]);
      && PersistedAsWritten(d).transactions[0].date == ""
      && PersistedAsWritten(d) != d
      && Persisted(d) == d
  {
  }
}

=== FILE: donations.dfy ===
/**
  The record types of the donation chaincode: a donation, the transactions
  embedded in it as its history, and how createDonation builds one from its
  six positional arguments.
 */
module Donations {

  /**
    An `int` field of the Go records. `Unset` is Go's zero value. `Arg(text)`
    is a value taken from an invocation argument; the source assigns the
    argument string directly (which does not compile), so the conversion to
    an integer is not interpreted here and the text is kept as it came.
   */
  datatype Num = Unset | Arg(text: string)

  /** One entry of a donation's history (`Transaction` in the source). */
  datatype Transaction = Transaction(
    id: string,
    date: string,
    destination: string,
    amount: Num,
    projectID: Num,
    ttype: string)

  /**
    A donation record (declared `Domation` in the source and used as
    `Donation` elsewhere; the evident intent is one type).
   */
  datatype Donation = Donation(
    id: string,
    owner: string,
    amount: Num,
    projectID: Num,
    transactions: seq<Transaction>)

  /** The zero value of the Go struct: what a failed decode leaves behind. */
  const ZeroDonation: Donation := Donation("", "", Unset, Unset, [])

  /** The only transaction type the chaincode writes. */
  const CreateType: string := "CREATE"

  /** Suffix of the first transaction's id. */
  const FirstTxSuffix: string := "T1"

  /** createDonation takes amount, projectID, owner, id, date, destination. */
  const CreateArity: nat := 6

  /** A history that starts with the CREATE entry named after the donation. */
  ghost predicate ValidHistory(d: Donation) {
    && |d.transactions| >= 1
    && d.transactions[0].ttype == CreateType
    && d.transactions[0].id == d.id + FirstTxSuffix
  }

  /**
    The record createDonation builds: id, owner and project from the
    arguments, the donation's own amount never assigned, and exactly one
    CREATE transaction carrying amount, project and date. The destination
    argument is never read, so the transaction's destination stays empty.
   */
  function NewDonation(args: seq<string>): (d: Donation)
    requires |args| == CreateArity
    ensures d.id == args[3] && d.owner == args[2]
    ensures d.projectID == Arg(args[1]) && d.amount == Unset
    ensures |d.transactions| == 1
    ensures d.transactions[0].ttype == CreateType
    ensures d.transactions[0].id == args[3] + FirstTxSuffix
    ensures d.transactions[0].amount == Arg(args[0])
    ensures d.transactions[0].projectID == Arg(args[1])
    ensures d.transactions[0].date == args[4]
    ensures d.transactions[0].destination == ""
    ensures ValidHistory(d)
  {
    var tx := Transaction(args[3] + FirstTxSuffix, args[4], "", Arg(args[0]), Arg(args[1]), CreateType);
    Donation(args[3], args[2], Unset, Arg(args[1]), [tx])
  }

  /** The destination argument has no influence on the record. */
  lemma DestinationIgnored(a: seq<string>, b: seq<string>)
    requires |a| == CreateArity && |b| == CreateArity
    requires a[..5] == b[..5]
    ensures NewDonation(a) == NewDonation(b)
  {
  }
}

=== FILE: ledger.dfy ===
/**
  The key-value state the chaincode runs over, as a pure value, with the
  collaborator's GetState/PutState and the consistency predicates between
  records and the index.
 */
module Ledger {
  import opened Wrappers
  import opened Donations

  /** What a key holds once decoded: a donation record or the index of donation ids. */
  datatype Value = Record(donation: Donation) | IndexValue(ids: seq<string>)

  type Store = map<string, Value>

  /** The well-known key of the index (`AllDonations`). */
  const IndexKey: string := "allDonations"

  /**
    Which collaborator calls fail: a GetState or PutState on a key in the
    corresponding set returns an error.
   */
  datatype Faults = Faults(failingGets: set<string>, failingPuts: set<string>)

  const NoFaults: Faults := Faults({}, {})

  function Lookup(s: Store, key: string): Option<Value> {
    if key in s then Some(s[key]) else None
  }

  /**
    GetState: `None` when the call fails, otherwise the (possibly absent)
    value. A missing key is not an error of the call itself.
   */
  function GetState(s: Store, f: Faults, key: string): Option<Option<Value>> {
    if key in f.failingGets then None else Some(Lookup(s, key))
  }

  /** PutState: `None` when the call fails, otherwise the store with `key` overwritten. */
  function PutState(s: Store, f: Faults, key: string, v: Value): Option<Store> {
    if key in f.failingPuts then None else Some(s[key := v])
  }

  /**
    Decoding the bytes under the index key. No bytes at all do not decode
    (an error); a donation record decodes to an empty index, because the two
    encodings share no field name.
   */
  function DecodeIndex(raw: Option<Value>): (r: Option<seq<string>>)
    ensures r.None? <==> raw.None?
    ensures raw.Some? && raw.value.IndexValue? ==> r == Some(raw.value.ids)
    ensures raw.Some? && raw.value.Record? ==> r == Some([])
  {
    match raw
    case None => None
    case Some(IndexValue(ids)) => Some(ids)
    case Some(Record(_)) => Some([])
  }

  /**
    Decoding the bytes under a donation key. The source ignores the decode
    error, so missing bytes leave the zero donation; an index value decodes
    to the zero donation too, sharing no field name with it.
   */
  function DecodeDonation(raw: Option<Value>): (d: Donation)
    ensures raw.Some? && raw.value.Record? ==> d == raw.value.donation
    ensures !(raw.Some? && raw.value.Record?) ==> d == ZeroDonation
  {
    match raw
    case Some(Record(d)) => d
    case _ => ZeroDonation
  }

  /** The index as the chaincode reads it. */
  function IndexOf(s: Store): Option<seq<string>> {
    DecodeIndex(Lookup(s, IndexKey))
  }

  /** The two stores agree on every key outside `keys`. */
  ghost predicate SameExcept(s: Store, t: Store, keys: set<string>) {
    forall k :: k !in keys ==> Lookup(s, k) == Lookup(t, k)
  }

  predicate IsRecord(s: Store, key: string) {
    key in s && s[key].Record?
  }

  /** Every record sits under its own id and carries a valid history. */
  ghost predicate RecordsKeyed(s: Store) {
    forall k :: IsRecord(s, k) ==> s[k].donation.id == k && ValidHistory(s[k].donation)
  }

  /** The index exists and each of its ids resolves to a record. */
  ghost predicate IndexResolves(s: Store) {
    && IndexKey in s
    && s[IndexKey].IndexValue?
    && forall i :: 0 <= i < |s[IndexKey].ids| ==> IsRecord(s, s[IndexKey].ids[i])
  }

  predicate Indexed(s: Store, key: string) {
    IndexKey in s && s[IndexKey].IndexValue? && key in s[IndexKey].ids
  }

  /** A record reachable only by direct key lookup. */
  predicate Orphan(s: Store, key: string) {
    IsRecord(s, key) && !Indexed(s, key)
  }

  /** No orphan records. */
  ghost predicate NoOrphans(s: Store) {
    forall k :: !Orphan(s, k)
  }

  /** Records and index agree in both directions. */
  ghost predicate Consistent(s: Store) {
    RecordsKeyed(s) && IndexResolves(s) && NoOrphans(s)
  }
}

=== FILE: wrappers.dfy ===
/** Failure-compatible wrappers shared by the chaincode model. */
module Wrappers {

  /** An optional value. */
  datatype Option<+T> = None | Some(value: T)

  /** A value or the error that prevented it; usable with `:-`. */
  datatype Result<+T, +E> = Ok(value: T) | Err(error: E) {

    predicate IsFailure() {
      Err?
    }

    function PropagateFailure<U>(): Result<U, E>
      requires Err?
    {
      Err(error)
    }

    function Extract(): T
      requires Ok?
    {
      value
    }
  }
}
